=== FILE: README.md ===
# Pokémon browser: store and screens

A model of the logic of a small React single-page application that browses a
static Pokémon collection. The store (`src/store.js`) holds two fields, the
fetched records and the search text, changed by a three-case reducer. It hands
its consumers a derived list: the records whose lower-cased name contains the
lower-cased search, cut to the first twenty matches in collection order, then
a sorted copy of those twenty by name. The application (`src/App.js`) shows
that list as a grid of links `/pokemon/<id>`, or a "No Pokemon Found" banner
when it is empty. The detail screen converts the route parameter to a number
and looks the record up by id in the same derived list.

Modules:

- `Wrappers`: `Option`, standing for `undefined` / `NaN`.
- `Seqs`: `Filter` (`Array.prototype.filter`) and `Take` (`slice(0, n)`).
- `Orders`: what it means for a comparison to be consistent (a total preorder).
- `Sorting`: a stable insertion sort under a comparator given as a total preorder.
  It is proved to give a permutation, in order, with ties in input order.
- `Text`: the abstract `Locale`, substring search `Contains` (`includes`), and a
  concrete ASCII locale proved to satisfy the locale assumptions.
- `Store`: records, state, actions, the reducer, the derived list and its properties.
- `App`: numbers in paths, the route table, the detail lookup, the list
  screen, the stat colours, and the link round trip.

Choices made in the model:

- `toLowerCase` and `localeCompare` are abstract. A `Locale` supplies a
  lowering function and a relation `le`, where `le(a, b)` stands for
  `a.localeCompare(b) <= 0`. `Valid` assumes only two things: lowering `""`
  gives `""`, and `le` is total and transitive. `Text.AsciiLocale` (ASCII case
  folding, code-point order) is one locale that meets these assumptions.
- The sort is stable, because `Array.prototype.sort` is stable.
- A record always has a name. The filter calls `p.name.toLowerCase()` and
  throws on a record without one, so the record type requires the field.
- The sort works on a copy (`[...filteredPokemon]`). Dafny sequences are
  immutable values, so the filtered window keeps its order by construction.
- The store has no page number, no page count and no page reset. The only
  paging is the fixed `slice(0, 20)`. The store returns the derived list, the
  search text and the `setSearch` callback: `Store.View` holds the first two,
  and `Store.UpdateSearch` models the callback. The detail lookup searches the
  derived list, not the full collection. Records without a name are not
  tolerated.
- A record carries only `id` and `name`, the two properties the modelled logic
  reads. Its `type` list and the six stat properties only feed rendering.

## Model

| member | source | states |
|---|---|---|
| Store.Reduce | src/store.js:12-20 | `SET_POKEMON` replaces the record list and keeps the search. `SET_SEARCH` replaces the search and keeps the list. Any other action type returns the state unchanged. |
| Store.InitialState | src/store.js:22-25 | The initial state has no records and the empty search. `Store.ReplayFromInitial` characterises every state reached from it. |
| Store.ReplayFromInitial | src/store.js:11-26 | After any sequence of actions dispatched from the initial state, each field holds the payload of the last action that set it. With no such action it holds its initial value: no records, empty search. |
| Store.UpdateSearch | src/store.js:36-41 | `setSearch(text)` leaves the search equal to `text` and the record list unchanged. |
| Seqs.Filter | src/store.js:45-46 | Every element of the filtered list passes the test, and the filtered list is no longer than the input. |
| Seqs.FilterMembers | src/store.js:45-46 | The filtered list keeps exactly the elements of the input that pass the test, as an if-and-only-if on membership. |
| Seqs.FilterAppend | src/store.js:45-46 | Filtering preserves collection order: the filter of a concatenation is the concatenation of the filters. |
| Seqs.Take | src/store.js:47 | `slice(0, n)` has length `min(n, length)` and agrees with the input position by position. |
| Text.Contains | src/store.js:46 | `includes` is true exactly when the needle occurs as a contiguous block at some index of the haystack. |
| Text.ContainsEmpty | src/store.js:46 | Every string contains the empty string. |
| Text.AsciiLocaleValid | src/store.js:46-52 | ASCII lowering and code-point order satisfy the assumptions made of a locale, so those assumptions can be met. |
| Store.MatchingSplits | src/store.js:45-46 | The matches of a collection split at any point are the matches of the front followed by the matches of the back. |
| Store.EmptySearchMatchesAll | src/store.js:45-47 | With the empty search every record matches, so the window is the first twenty records of the collection. |
| Store.Window | src/store.js:43-49 | `filteredPokemon` has `min(20, number of matches)` entries, and entry `i` is the `i`-th match in collection order, so every entry matches the search. `Store.ListedMatchIsEarly` and `Store.EarlyMatchIncluded` relate it to the exposed list. |
| Store.Derive | src/store.js:43-54 | The exposed list has `min(20, number of matches)` entries. It is a permutation of exactly the first twenty matches in collection order. Every entry's lowered name contains the lowered search. |
| Store.ListedMatchIsEarly | src/store.js:43-54 | Truncation comes before sorting: each listed record is one of the first twenty matches. A record matching only at position 21 or later never appears, however early it would sort. |
| Store.EarlyMatchIncluded | src/store.js:45-53 | Each of the first twenty matches appears in the exposed list. |
| Store.ByNameIsPreorder | src/store.js:52 | Comparing records by name under a valid locale is a consistent comparator, total and transitive. |
| Store.DeriveSorted | src/store.js:51-54 | The exposed list is ascending by name under the locale's comparison. |
| Store.DeriveStable | src/store.js:52 | Records whose names compare equal appear in the exposed list in the order they have among the first twenty matches. |
| Store.Present | src/store.js:55 | The store returns the search text unchanged and, as `pokemon`, the sorted derived list. That list has `min(20, number of matches)` entries and is a permutation of the first twenty matches. Every entry matches the search, and every entry comes from the fetched collection. |
| Store.PresentSorted | src/store.js:51-55 | The list the store returns to the screens is ascending by name under a valid locale. |
| Sorting.Insert | src/store.js:52 | Insertion adds exactly one element: the result's multiset is the input's plus that element. |
| Sorting.Sort | src/store.js:52 | The sorted copy is a permutation of its input. |
| Sorting.InsertSorted | src/store.js:52 | Inserting into an ordered list under a consistent comparator keeps it ordered. |
| Sorting.SortSorted | src/store.js:52 | The sorted copy is ordered by the comparator. |
| Sorting.InsertTies | src/store.js:52 | An inserted element lands before every element tied with it. |
| Sorting.SortStable | src/store.js:52 | The sort is stable: each tie class keeps its input order. |
| App.Digits | src/App.js:76 | The decimal rendering of a non-negative id is a non-empty string of digits. |
| App.DigitsRoundTrip | src/App.js:76 | Reading back the decimal digits of `n` gives `n`. |
| App.ParseNumber | src/App.js:103 | Unary plus on a route parameter. A digit string gives a number. A parameter not starting with a sign gives a non-negative number or `NaN`. A parameter starting with any other non-digit gives `NaN`. |
| App.IdText | src/App.js:76 | `${id}` for any integer id is non-empty and has no `/`. It starts with `-` exactly when the id is negative, and the rest is decimal digits. Its value is pinned by `App.IdTextRoundTrip`. |
| App.LeadingZeroIgnored | src/App.js:103 | A leading `0` does not change what a digit string converts to, so `+"007"` is 7. |
| App.PlusSignIgnored | src/App.js:103 | A leading `+` does not change what a digit string converts to, so `+"+7"` is 7. |
| App.MinusSignNegates | src/App.js:103 | A leading `-` negates the value of the digits after it. |
| App.IdTextRoundTrip | src/App.js:76-103 | Applying unary plus to the text `${id}` gives back `id`. |
| App.MatchDetail | src/App.js:29-32 | A path matches `/pokemon/:id` exactly when it is the prefix followed by one non-empty segment without `/`, and that segment is the parameter (both directions). |
| App.LinkTo | src/App.js:76 | A tile's link `/pokemon/${id}` matches the detail route with parameter `${id}`. |
| App.FirstWithId | src/App.js:103 | `find` by id returns the first position holding that id. It returns nothing exactly when no record has that id. |
| App.Detail | src/App.js:97-107 | A found record's id equals the numeric value of the parameter, and it is the first such record in the list. "No pokemon found" is shown exactly when the parameter is `NaN` or no listed record has that id. |
| Store.WindowIdsOnly | src/store.js:43-55 | An id that none of the first twenty matches carries is carried by no record of the exposed list. |
| App.DetailOutsideWindow | src/App.js:101-103 | The lookup scans the store's derived list, not the full collection. A parameter whose value is an id that none of the current first twenty matches carries gives "No pokemon found", even when the collection holds a record with that id. |
| App.ColourFor | src/App.js:109-118 | Indices 0-1 map to red, 2-4 to yellow and 5 to green. Any other index gives `undefined`. |
| App.StatColours | src/App.js:109-161 | Each of the six stats, in display order, gets a defined colour: `hp` and `attack` red, `defense`, `special_attack` and `special_defense` yellow, `speed` green. |
| App.RenderList | src/App.js:66-90 | The "No Pokemon Found" banner and the grid are mutually exclusive, and the banner shows exactly when the list is empty. Grid tile `i` carries record `i`'s id as key, its link and its name. |
| App.Navigate | src/App.js:19-33 | `/` shows the list screen with the current search and the rendering of the store's derived list. Any other path reaches the detail screen exactly when it matches `/pokemon/:id`. There, "No pokemon found" shows exactly when the parameter is `NaN` or no record of the derived list has its value as id. Otherwise the record shown comes from the derived list and carries that id. |
| App.LinkFindsRecord | src/App.js:76-103 | For every record in a list, its link `/pokemon/${id}` matches the detail route. Looking up that parameter in the same list finds a record with that id. |
| App.TileLinkRoundTrip | src/App.js:71-103 | For every position of the derived list, the grid the `/` screen shows has a tile there, and following it leads to a detail screen showing a record whose id is the tile's id. |

## Left out

- The fetch of `/pokemon.json` in `useEffect` (src/store.js:28-34) is network I/O. It is modelled as an arbitrary `SetPokemon` payload.
- React context, `useReducer`, `useMemo`, `useCallback` and the provider (src/store.js:58-70) are framework wiring. Memoisation affects only efficiency, so the derived list is a plain function of the records and the search.
- The `Pagination` component (src/App.js:183-209) is left out. It reads `page`, `totalPages` and `setPage`, which the store never provides, so there is no page logic to model.
- The stat-bar width `Math.floor((value / 100) * 5)` (src/App.js:168-170) is floating-point arithmetic feeding a CSS class.
- JSX markup, CSS classes, sprite image URLs, the search input element, and the router, react-location and react-query libraries are left out. Only exact `/` and one-segment `/pokemon/:id` matching is modelled.
- Unicode and locale semantics of `toLowerCase` and `localeCompare` are abstract parameters, not re-implemented.
- App.ParseNumber: JavaScript's unary plus also trims whitespace and accepts fractions, exponents, hex/octal/binary literals and `Infinity`. The model treats all of those as `NaN`. A parameter produced by a tile link is an optional minus sign and decimal digits, so that case is modelled exactly.
- App.IdTextRoundTrip: ids are unbounded integers. JavaScript numbers lose precision past 2^53 and print in exponent form from 10^21, which is not modelled.

=== FILE: app.dfy ===
/**
 * The two screens of the application: the list of the store's derived records,
 * each linking to `/pokemon/<id>`, and the detail screen, which turns the route
 * parameter into a number and looks the record up in that same derived list.
 */
module App {
  import opened Wrappers
  import opened Seqs
  import opened Text
  import opened Store

  // ----- Numbers in paths -----

  predicate IsDigit(c: char) {
    '0' <= c <= '9'
  }

  predicate AllDigits(s: string) {
    forall i :: 0 <= i < |s| ==> IsDigit(s[i])
  }

  function DigitChar(d: nat): char
    requires d < 10
  {
    ('0' as int + d) as char
  }

  /** Decimal digits of `n`, most significant first, without leading zeros. */
  function Digits(n: nat): (r: string)
    ensures |r| > 0 && AllDigits(r)
  {
    if n < 10 then [DigitChar(n)] else Digits(n / 10) + [DigitChar(n % 10)]
  }

  /** The numeric value of a string of decimal digits. */
  function DigitsValue(s: string): nat
    requires AllDigits(s)
    decreases |s|
  {
    if |s| == 0 then 0
    else DigitsValue(s[..|s| - 1]) * 10 + (s[|s| - 1] as int - '0' as int)
  }

  /** `${id}` for an integer id: an optional minus sign and the decimal digits. */
  function IdText(id: int): (r: string)
    ensures |r| > 0 && '/' !in r
    ensures r[0] == '-' <==> id < 0
    ensures forall i :: (if id < 0 then 1 else 0) <= i < |r| ==> IsDigit(r[i])
  {
    if id < 0 then "-" + Digits(-id) else Digits(id)
  }

  /**
   * The unary plus applied to a route parameter. `None` is `NaN`: it equals no id.
   * The empty string converts to 0; an optional sign followed by decimal digits
   * converts to its value; every other string converts to `NaN`.
   */
  function ParseNumber(s: string): (r: Option<int>)
    ensures r.Some? && |s| > 0 && s[0] != '-' ==> r.value >= 0
    ensures |s| > 0 && AllDigits(s) ==> r.Some?
    ensures |s| > 0 && !IsDigit(s[0]) && s[0] != '-' && s[0] != '+' ==> r.None?
  {
    if |s| == 0 then Some(0)
    else if s[0] == '-' || s[0] == '+' then
      var body := s[1..];
      if |body| > 0 && AllDigits(body) then
        var magnitude: int := DigitsValue(body);
        Some(if s[0] == '-' then -magnitude else magnitude)
      else None
    else if AllDigits(s) then Some(DigitsValue(s))
    else None
  }

  /** A leading zero does not change the value of a digit string. */
  lemma {:induction false} LeadingZeroValue(t: string)
    requires AllDigits(t)
    ensures AllDigits("0" + t) && DigitsValue("0" + t) == DigitsValue(t)
    decreases |t|
  {
    if |t| > 0 {
      assert ("0" + t)[..|"0" + t| - 1] == "0" + t[..|t| - 1];
      LeadingZeroValue(t[..|t| - 1]);
    } else {
      assert "0" + t == "0";
      assert ("0")[..0] == "";
    }
  }

  /**
   * A leading zero leaves the number a digit string converts to unchanged
   * ("007" converts to 7); with `IdTextRoundTrip` this fixes the value of
   * every decimal parameter.
   */
  lemma LeadingZeroIgnored(t: string)
    requires |t| > 0 && AllDigits(t)
    ensures ParseNumber("0" + t) == ParseNumber(t)
  {
    LeadingZeroValue(t);
    var z := "0" + t;
    assert z[0] == '0';
    assert ParseNumber(z) == Some(DigitsValue(z));
  }

  /** A plus sign leaves the number unchanged ("+7" converts to 7). */
  lemma PlusSignIgnored(t: string)
    requires |t| > 0 && AllDigits(t)
    ensures ParseNumber("+" + t) == ParseNumber(t)
  {
    var p := "+" + t;
    assert p[0] == '+' && p[1..] == t;
  }

  /** A minus sign negates the value of the digits after it. */
  lemma MinusSignNegates(t: string)
    requires |t| > 0 && AllDigits(t)
    ensures ParseNumber("-" + t) == Some(-(DigitsValue(t) as int))
  {
    var m := "-" + t;
    assert m[0] == '-' && m[1..] == t;
  }

  lemma {:induction false} DigitsRoundTrip(n: nat)
    ensures DigitsValue(Digits(n)) == n
  {
    if n >= 10 {
      var d := Digits(n);
      assert d[..|d| - 1] == Digits(n / 10);
      DigitsRoundTrip(n / 10);
    }
  }

  /** Printing an id and converting it back with unary plus gives the id again. */
  lemma IdTextRoundTrip(id: int)
    ensures ParseNumber(IdText(id)) == Some(id)
  {
    if id < 0 {
      DigitsRoundTrip(-id);
      assert IdText(id)[1..] == Digits(-id);
    } else {
      DigitsRoundTrip(id);
    }
  }

  // ----- Routes -----

  const DetailPrefix: string := "/pokemon/"

  /** The link target of a list tile. */
  function LinkTo(id: int): (r: string)
    ensures MatchDetail(r) == Some(IdText(id))
  {
    DetailPrefix + IdText(id)
  }

  /** The `:id` parameter of the route `/pokemon/:id`, when `path` matches it. */
  function MatchDetail(path: string): (r: Option<string>)
    ensures r.Some? ==> path == DetailPrefix + r.value && |r.value| > 0 && '/' !in r.value
    ensures forall seg :: path == DetailPrefix + seg && |seg| > 0 && '/' !in seg ==> r == Some(seg)
  {
    if |path| > |DetailPrefix| && path[..|DetailPrefix|] == DetailPrefix && '/' !in path[|DetailPrefix|..] then
      assert path == DetailPrefix + path[|DetailPrefix|..];
      Some(path[|DetailPrefix|..])
    else None
  }

  // ----- The detail screen -----

  /** `list.find(p => p.id === n)` as a position: the first record with id `n`. */
  function FirstWithId(list: seq<Record>, n: int): (r: Option<nat>)
    decreases |list|
    ensures r.Some? ==> r.value < |list| && list[r.value].id == n
    ensures r.Some? ==> forall j :: 0 <= j < r.value ==> list[j].id != n
    ensures r.None? <==> forall j :: 0 <= j < |list| ==> list[j].id != n
  {
    if |list| == 0 then None
    else if list[0].id == n then Some(0)
    else match FirstWithId(list[1..], n)
      case None => None
      case Some(j) => Some(j + 1)
  }

  datatype DetailView = NoPokemonFound | Found(record: Record)

  /** The detail screen for route parameter `param`, looking in the list the store exposes. */
  function Detail(list: seq<Record>, param: string): (v: DetailView)
    ensures v.Found? ==> ParseNumber(param) == Some(v.record.id) && v.record in list
    ensures v.Found? ==> exists i :: 0 <= i < |list| && list[i] == v.record
                                     && forall j :: 0 <= j < i ==> list[j].id != v.record.id
    ensures v.NoPokemonFound? <==>
      (ParseNumber(param).None? || forall j :: 0 <= j < |list| ==> list[j].id != ParseNumber(param).value)
  {
    match ParseNumber(param)
    case None => NoPokemonFound
    case Some(n) =>
      match FirstWithId(list, n)
      case None => NoPokemonFound
      case Some(i) => Found(list[i])
  }

  /**
   * The lookup sees only the store's derived list: an id that no record among
   * the first `ResultLimit` matches of the current search carries is not found,
   * even when the full collection has a record with it.
   */
  lemma DetailOutsideWindow(loc: Locale, s: State, param: string, id: int)
    requires ParseNumber(param) == Some(id)
    requires forall i :: 0 <= i < |Window(loc, s.pokemon, s.search)| ==> Window(loc, s.pokemon, s.search)[i].id != id
    ensures Detail(Present(loc, s).pokemon, param) == NoPokemonFound
  {
    WindowIdsOnly(loc, s.pokemon, s.search, id);
  }

  // ----- Stat colours -----

  datatype Colour = Red | Yellow | Green

  const ColourTable: seq<Colour> := [Red, Red, Yellow, Yellow, Yellow, Green]

  /** The six stats the detail screen shows, in display order. */
  const StatNames: seq<string> := ["hp", "attack", "defense", "special_attack", "special_defense", "speed"]

  /** `getColorClass(index)`; `None` is the `undefined` of an index outside the table. */
  function ColourFor(index: int): (r: Option<Colour>)
    ensures r.Some? <==> 0 <= index < |StatNames|
    ensures 0 <= index <= 1 ==> r == Some(Red)
    ensures 2 <= index <= 4 ==> r == Some(Yellow)
    ensures index == 5 ==> r == Some(Green)
  {
    if 0 <= index < |ColourTable| then Some(ColourTable[index]) else None
  }

  /** The colour of each stat bar, paired with its stat. */
  function StatColours(): (r: seq<(string, Option<Colour>)>)
    ensures |r| == |StatNames|
    ensures forall i :: 0 <= i < |r| ==> r[i].0 == StatNames[i] && r[i].1.Some?
    ensures forall i :: 0 <= i < |r| ==> r[i].1 == Some(if i < 2 then Red else if i < 5 then Yellow else Green)
  {
    seq(|StatNames|, i requires 0 <= i < |StatNames| => (StatNames[i], ColourFor(i)))
  }

  // ----- The list screen -----

  /** One grid entry: its React key, link target and caption. */
  datatype Tile = Tile(key: int, link: string, name: string)

  /** The banner "No Pokemon Found" and the grid, each under its own condition. */
  datatype ListView = ListView(noneFoundBanner: bool, grid: Option<seq<Tile>>)

  /** Exactly one of the banner and the grid is shown, the banner exactly when the list is empty. */
  function RenderList(list: seq<Record>): (v: ListView)
    ensures v.noneFoundBanner <==> |list| == 0
    ensures v.noneFoundBanner != v.grid.Some?
    ensures v.grid.Some? ==> |v.grid.value| == |list|
    ensures v.grid.Some? ==> forall i :: 0 <= i < |list| ==>
      v.grid.value[i] == Tile(list[i].id, LinkTo(list[i].id), list[i].name)
  {
    var tiles := seq(|list|, i requires 0 <= i < |list| => Tile(list[i].id, LinkTo(list[i].id), list[i].name));
    ListView(|list| == 0, if |list| > 0 then Some(tiles) else None)
  }

  // ----- Navigation -----

  datatype Screen =
    | ListScreen(search: string, list: ListView)
    | DetailScreen(detail: DetailView)
    | NoRoute

  /** The route table: `/` shows the search box and the list, `/pokemon/:id` the detail screen. */
  function Navigate(loc: Locale, s: State, path: string): (r: Screen)
    ensures path == "/" ==> r.ListScreen? && r.search == s.search
    ensures path == "/" ==> (r.list.noneFoundBanner <==> |Present(loc, s).pokemon| == 0)
    ensures path == "/" ==> r.list == RenderList(Present(loc, s).pokemon)
    ensures path != "/" ==> (r.DetailScreen? <==> MatchDetail(path).Some?)
    ensures r.DetailScreen? && r.detail.Found? ==>
      r.detail.record in Present(loc, s).pokemon && ParseNumber(MatchDetail(path).value) == Some(r.detail.record.id)
    ensures r.DetailScreen? ==>
      (r.detail.NoPokemonFound? <==>
        ParseNumber(MatchDetail(path).value).None?
        || forall j :: 0 <= j < |Present(loc, s).pokemon| ==>
             Present(loc, s).pokemon[j].id != ParseNumber(MatchDetail(path).value).value)
  {
    var view := Present(loc, s);
    if path == "/" then ListScreen(view.search, RenderList(view.pokemon))
    else match MatchDetail(path)
      case Some(param) => DetailScreen(Detail(view.pokemon, param))
      case None => NoRoute
  }

  /**
   * The link of the record at position `i` of a list matches the detail route,
   * and looking its parameter up in the same list finds a record with that id:
   * the first one in the list.
   */
  lemma LinkFindsRecord(list: seq<Record>, i: nat)
    requires i < |list|
    ensures MatchDetail(LinkTo(list[i].id)) == Some(IdText(list[i].id))
    ensures Detail(list, IdText(list[i].id)).Found?
    ensures Detail(list, IdText(list[i].id)).record.id == list[i].id
  {
    IdTextRoundTrip(list[i].id);
  }

  /**
   * Every record of the list screen has a tile, and following that tile leads
   * to a detail screen showing a record with the tile's id.
   */
  lemma TileLinkRoundTrip(loc: Locale, s: State, i: nat)
    requires i < |Present(loc, s).pokemon|
    ensures RenderList(Present(loc, s).pokemon).grid.Some?
    ensures var t := RenderList(Present(loc, s).pokemon).grid.value[i];
      && Navigate(loc, s, t.link).DetailScreen?
      && Navigate(loc, s, t.link).detail.Found?
      && Navigate(loc, s, t.link).detail.record.id == t.key
  {
    var list := Present(loc, s).pokemon;
    var t := RenderList(list).grid.value[i];
    assert t == Tile(list[i].id, LinkTo(list[i].id), list[i].name);
    LinkFindsRecord(list, i);
    assert t.link != "/";
  }
}

=== FILE: orders.dfy ===
/** Properties of a comparison relation, shared by the string locale and the sort. */
module Orders {

  /** The comparison is consistent: total and transitive (hence reflexive). */
  ghost predicate TotalPreorder<T(!new)>(le: (T, T) -> bool) {
    && (forall a, b :: le(a, b) || le(b, a))
    && (forall a, b, c :: le(a, b) && le(b, c) ==> le(a, c))
  }
}

=== FILE: seqs.dfy ===
/** Generic sequence helpers used by the list pipeline: `Array.prototype.filter` and `slice(0, n)`. */
module Seqs {

  function Min(a: int, b: int): int {
    if a <= b then a else b
  }

  /** The elements of `s` that satisfy `p`, in their original order. */
  function Filter<T(!new)>(p: T -> bool, s: seq<T>): (r: seq<T>)
    ensures |r| <= |s|
    ensures forall i :: 0 <= i < |r| ==> p(r[i])
  {
    if |s| == 0 then []
    else (if p(s[0]) then [s[0]] else []) + Filter(p, s[1..])
  }

  /** The filter keeps exactly the elements that pass the test. */
  lemma {:induction false} FilterMembers<T(!new)>(p: T -> bool, s: seq<T>)
    ensures forall x :: x in Filter(p, s) <==> x in s && p(x)
  {
    if |s| > 0 {
      FilterMembers(p, s[1..]);
      assert s == [s[0]] + s[1..];
    }
  }

  /** Filtering a sequence with a given first element. */
  lemma FilterCons<T(!new)>(p: T -> bool, x: T, s: seq<T>)
    ensures Filter(p, [x] + s) == (if p(x) then [x] else []) + Filter(p, s)
  {
    assert ([x] + s)[1..] == s;
  }

  /** Filtering distributes over concatenation: it keeps the relative order of what it keeps. */
  lemma {:induction false} FilterAppend<T(!new)>(p: T -> bool, a: seq<T>, b: seq<T>)
    ensures Filter(p, a + b) == Filter(p, a) + Filter(p, b)
  {
    if |a| == 0 {
      assert a + b == b;
    } else {
      assert (a + b)[1..] == a[1..] + b;
      FilterAppend(p, a[1..], b);
    }
  }

  /** A filter whose predicate holds everywhere keeps the whole sequence. */
  lemma {:induction false} FilterKeepsAll<T(!new)>(p: T -> bool, s: seq<T>)
    requires forall i :: 0 <= i < |s| ==> p(s[i])
    ensures Filter(p, s) == s
  {
    if |s| > 0 {
      FilterKeepsAll(p, s[1..]);
    }
  }

  /** `s.slice(0, n)`: the first `n` elements, or all of them when there are fewer. */
  function Take<T>(s: seq<T>, n: nat): (r: seq<T>)
    ensures |r| == Min(n, |s|)
    ensures forall i :: 0 <= i < |r| ==> r[i] == s[i]
  {
    s[..Min(n, |s|)]
  }
}

=== FILE: sorting.dfy ===
/**
 * A stable comparison sort, as `Array.prototype.sort` with a comparator is required
 * to be. The comparator is given as a "less than or equal" relation `le`; the
 * JavaScript comparator `c` corresponds to `le(a, b) == (c(a, b) <= 0)`.
 */
module Sorting {
  import opened Seqs
  import opened Orders

  predicate SortedBy<T>(le: (T, T) -> bool, s: seq<T>) {
    forall i, j :: 0 <= i < j < |s| ==> le(s[i], s[j])
  }

  /** `x` and `k` compare equal: the comparator returns 0 for them. */
  function TiedWith<T>(le: (T, T) -> bool, k: T): T -> bool {
    x => le(x, k) && le(k, x)
  }

  /** Inserts `x` in front of the first element it does not exceed. */
  function Insert<T>(le: (T, T) -> bool, x: T, s: seq<T>): (r: seq<T>)
    ensures |r| == |s| + 1
    ensures multiset(r) == multiset(s) + multiset{x}
  {
    if |s| == 0 then [x]
    else if le(x, s[0]) then [x] + s
    else
      assert s == [s[0]] + s[1..];
      [s[0]] + Insert(le, x, s[1..])
  }

  /** Insertion sort; earlier elements are inserted in front of their ties, which keeps it stable. */
  function Sort<T>(le: (T, T) -> bool, s: seq<T>): (r: seq<T>)
    ensures |r| == |s|
    ensures multiset(r) == multiset(s)
  {
    if |s| == 0 then []
    else
      assert s == [s[0]] + s[1..];
      Insert(le, s[0], Sort(le, s[1..]))
  }

  /** An ordered list stays ordered under a new head that is below all of its elements. */
  lemma SortedCons<T>(le: (T, T) -> bool, h: T, t: seq<T>)
    requires SortedBy(le, t)
    requires forall i :: 0 <= i < |t| ==> le(h, t[i])
    ensures SortedBy(le, [h] + t)
  {
    var r := [h] + t;
    forall i, j | 0 <= i < j < |r| ensures le(r[i], r[j]) {
      assert r[j] == t[j - 1];
      if i > 0 {
        assert r[i] == t[i - 1];
      }
    }
  }

  lemma {:induction false} InsertSorted<T(!new)>(le: (T, T) -> bool, x: T, s: seq<T>)
    requires TotalPreorder(le)
    requires SortedBy(le, s)
    ensures SortedBy(le, Insert(le, x, s))
  {
    if |s| == 0 {
    } else if le(x, s[0]) {
      forall i | 0 <= i < |s| ensures le(x, s[i]) {
        if i > 0 {
          assert le(x, s[0]) && le(s[0], s[i]);
        }
      }
      SortedCons(le, x, s);
    } else {
      var t := Insert(le, x, s[1..]);
      InsertSorted(le, x, s[1..]);
      forall i | 0 <= i < |t| ensures le(s[0], t[i]) {
        assert t[i] in multiset(t);
        if t[i] == x {
          assert le(s[0], x);
        } else {
          assert t[i] in multiset(s[1..]);
          var k :| 0 <= k < |s[1..]| && s[1..][k] == t[i];
          assert s[k + 1] == t[i];
        }
      }
      SortedCons(le, s[0], t);
    }
  }

  /** The sorted copy is ordered by the comparator. */
  lemma {:induction false} SortSorted<T(!new)>(le: (T, T) -> bool, s: seq<T>)
    requires TotalPreorder(le)
    ensures SortedBy(le, Sort(le, s))
  {
    if |s| > 0 {
      SortSorted(le, s[1..]);
      InsertSorted(le, s[0], Sort(le, s[1..]));
    }
  }

  /** Two elements tied with the same `k` compare as less-or-equal both ways. */
  lemma TiesAgree<T(!new)>(le: (T, T) -> bool, x: T, y: T, k: T)
    requires TotalPreorder(le)
    requires TiedWith(le, k)(x) && TiedWith(le, k)(y)
    ensures le(x, y)
  {
    assert le(x, k) && le(k, y);
  }

  /** Passing a head `y` not tied together with `x` keeps `x` ahead of the remaining ties. */
  lemma TiesPastHead<T(!new)>(p: T -> bool, x: T, y: T, t: seq<T>, u: seq<T>)
    requires !(p(x) && p(y))
    requires Filter(p, u) == (if p(x) then [x] else []) + Filter(p, t)
    ensures Filter(p, [y] + u) == (if p(x) then [x] else []) + Filter(p, [y] + t)
  {
    FilterCons(p, y, u);
    FilterCons(p, y, t);
    var ft := Filter(p, t);
    if p(y) {
      assert Filter(p, u) == [] + ft;
      assert [] + ft == ft;
    } else {
      assert [] + Filter(p, u) == Filter(p, u);
      assert [] + ft == ft;
    }
  }

  /** Inserting `x` puts it before every element tied with it. */
  lemma {:induction false} InsertTies<T(!new)>(le: (T, T) -> bool, x: T, s: seq<T>, k: T)
    requires TotalPreorder(le)
    ensures Filter(TiedWith(le, k), Insert(le, x, s))
         == (if TiedWith(le, k)(x) then [x] else []) + Filter(TiedWith(le, k), s)
  {
    var p := TiedWith(le, k);
    if |s| == 0 || le(x, s[0]) {
      assert Insert(le, x, s) == [x] + s;
      FilterCons(p, x, s);
    } else {
      if p(x) && p(s[0]) {
        TiesAgree(le, x, s[0], k);
      }
      InsertTies(le, x, s[1..], k);
      TiesPastHead(p, x, s[0], s[1..], Insert(le, x, s[1..]));
      assert [s[0]] + s[1..] == s;
    }
  }

  /**
   * Stability: for every tie class, the sorted copy lists its members in the
   * same order as the input does.
   */
  lemma {:induction false} SortStable<T(!new)>(le: (T, T) -> bool, s: seq<T>, k: T)
    requires TotalPreorder(le)
    ensures Filter(TiedWith(le, k), Sort(le, s)) == Filter(TiedWith(le, k), s)
  {
    if |s| > 0 {
      SortStable(le, s[1..], k);
      InsertTies(le, s[0], Sort(le, s[1..]), k);
    }
  }
}

=== FILE: store.dfy ===
/**
 * The Pokémon store: a two-field state changed by a three-case reducer, and the
 * list the store hands to the views, derived from that state by
 * filter, then keep the first twenty, then sort a copy by name.
 */
module Store {
  import opened Wrappers
  import opened Seqs
  import opened Orders
  import opened Sorting
  import opened Text

  /**
   * One entry of the fetched collection, with the two properties the logic reads.
   * The name is always present: the filter calls `toLowerCase` on it and would
   * throw on a record without one.
   */
  datatype Record = Record(id: int, name: string)

  datatype State = State(pokemon: seq<Record>, search: string)

  /** An action type string other than the two the reducer knows. */
  type UnknownType = k: string | k != "SET_POKEMON" && k != "SET_SEARCH" witness ""

  /** The dispatched actions; `Other` is any action whose type is neither of the two the reducer knows. */
  datatype Action =
    | SetPokemon(records: seq<Record>)
    | SetSearch(text: string)
    | Other(kind: UnknownType)

  /** How many matches the list keeps (the literal `slice(0, 20)`). */
  const ResultLimit: nat := 20

  /** The reducer's initial state: no records and the empty search. */
  function InitialState(): (s: State)
    ensures |s.pokemon| == 0 && |s.search| == 0
  {
    State([], "")
  }

  /** The reducer: each known action replaces its own field and nothing else. */
  function Reduce(s: State, a: Action): (r: State)
    ensures r.pokemon == (if a.SetPokemon? then a.records else s.pokemon)
    ensures r.search == (if a.SetSearch? then a.text else s.search)
  {
    match a
    case SetPokemon(records) => s.(pokemon := records)
    case SetSearch(text) => s.(search := text)
    case Other(_) => s
  }

  /** The state after dispatching `actions` one after another, starting from `s`. */
  function Replay(s: State, actions: seq<Action>): State
    decreases |actions|
  {
    if |actions| == 0 then s
    else Reduce(Replay(s, actions[..|actions| - 1]), actions[|actions| - 1])
  }

  /** The payload of the last `SET_SEARCH` action, if any. */
  function LastSearch(actions: seq<Action>): Option<string>
    decreases |actions|
  {
    if |actions| == 0 then None
    else match actions[|actions| - 1]
      case SetSearch(text) => Some(text)
      case _ => LastSearch(actions[..|actions| - 1])
  }

  /** The payload of the last `SET_POKEMON` action, if any. */
  function LastPokemon(actions: seq<Action>): Option<seq<Record>>
    decreases |actions|
  {
    if |actions| == 0 then None
    else match actions[|actions| - 1]
      case SetPokemon(records) => Some(records)
      case _ => LastPokemon(actions[..|actions| - 1])
  }

  /**
   * Starting from the initial state (no records, empty search), each field holds
   * the payload of the last action that set it, or its initial value when none did;
   * actions of any other type leave no trace.
   */
  lemma {:induction false} ReplayFromInitial(actions: seq<Action>)
    ensures Replay(InitialState(), actions).pokemon
         == (match LastPokemon(actions) case Some(p) => p case None => [])
    ensures Replay(InitialState(), actions).search
         == (match LastSearch(actions) case Some(t) => t case None => "")
  {
    if |actions| > 0 {
      ReplayFromInitial(actions[..|actions| - 1]);
    }
  }

  /** The store's `setSearch` callback: dispatch `SET_SEARCH` with the new text. */
  function UpdateSearch(s: State, text: string): (r: State)
    ensures r.search == text
    ensures r.pokemon == s.pokemon
  {
    Reduce(s, SetSearch(text))
  }

  // ----- The derived list -----

  /** The filter test: the lowered name contains the lowered search text. */
  predicate Matches(loc: Locale, search: string, p: Record) {
    Contains(loc.lower(p.name), loc.lower(search))
  }

  function MatchesSearch(loc: Locale, search: string): Record -> bool {
    p => Matches(loc, search, p)
  }

  /** All matching records, in collection order. */
  function Matching(loc: Locale, pokemon: seq<Record>, search: string): seq<Record> {
    Filter(MatchesSearch(loc, search), pokemon)
  }

  /** The first `ResultLimit` matches, in collection order (the memoised filtered list). */
  function Window(loc: Locale, pokemon: seq<Record>, search: string): (r: seq<Record>)
    ensures |r| == Min(ResultLimit, |Matching(loc, pokemon, search)|)
    ensures forall i :: 0 <= i < |r| ==> r[i] == Matching(loc, pokemon, search)[i]
    ensures forall i :: 0 <= i < |r| ==> Matches(loc, search, r[i])
  {
    Take(Matching(loc, pokemon, search), ResultLimit)
  }

  /** The sort comparator: by name under the locale's comparison. */
  function ByName(loc: Locale): (Record, Record) -> bool {
    (a: Record, b: Record) => loc.le(a.name, b.name)
  }

  /** The list the store exposes as `pokemon`: the window, sorted by name. */
  function Derive(loc: Locale, pokemon: seq<Record>, search: string): (r: seq<Record>)
    ensures |r| == Min(ResultLimit, |Matching(loc, pokemon, search)|)
    ensures multiset(r) == multiset(Window(loc, pokemon, search))
    ensures forall i :: 0 <= i < |r| ==> Matches(loc, search, r[i])
  {
    var w := Window(loc, pokemon, search);
    var r := Sort(ByName(loc), w);
    assert forall i :: 0 <= i < |r| ==> Matches(loc, search, r[i]) by {
      forall i | 0 <= i < |r| ensures Matches(loc, search, r[i]) {
        assert r[i] in multiset(w);
        var j :| 0 <= j < |w| && w[j] == r[i];
        assert w[j] in Matching(loc, pokemon, search);
      }
    }
    r
  }

  /**
   * What the store returns to its consumers: the derived list and the search
   * text, and no page. The third returned value, the `setSearch` callback, is
   * `UpdateSearch`.
   */
  datatype View = View(pokemon: seq<Record>, search: string)

  function Present(loc: Locale, s: State): (v: View)
    ensures v.search == s.search
    ensures |v.pokemon| <= ResultLimit
    ensures |v.pokemon| == Min(ResultLimit, |Matching(loc, s.pokemon, s.search)|)
    ensures multiset(v.pokemon) == multiset(Window(loc, s.pokemon, s.search))
    ensures forall i :: 0 <= i < |v.pokemon| ==> Matches(loc, s.search, v.pokemon[i])
    ensures forall p :: p in v.pokemon ==> p in s.pokemon
  {
    var v := View(Derive(loc, s.pokemon, s.search), s.search);
    assert forall p :: p in v.pokemon ==> p in s.pokemon by {
      FilterMembers(MatchesSearch(loc, s.search), s.pokemon);
      forall p | p in v.pokemon ensures p in s.pokemon {
        assert p in multiset(Window(loc, s.pokemon, s.search));
      }
    }
    v
  }

  // ----- Properties of the derived list -----

  lemma ByNameIsPreorder(loc: Locale)
    requires Valid(loc)
    ensures TotalPreorder(ByName(loc))
  {
    var le := ByName(loc);
    forall a: Record, b: Record ensures le(a, b) || le(b, a) {
      assert loc.le(a.name, b.name) || loc.le(b.name, a.name);
    }
    forall a: Record, b: Record, c: Record | le(a, b) && le(b, c) ensures le(a, c) {
      assert loc.le(a.name, b.name) && loc.le(b.name, c.name);
    }
  }

  /** The list the store returns to the screens is in ascending name order. */
  lemma PresentSorted(loc: Locale, s: State)
    requires Valid(loc)
    ensures SortedBy(ByName(loc), Present(loc, s).pokemon)
  {
    DeriveSorted(loc, s.pokemon, s.search);
  }

  /** The exposed list is in ascending name order. */
  lemma DeriveSorted(loc: Locale, pokemon: seq<Record>, search: string)
    requires Valid(loc)
    ensures forall i, j :: 0 <= i < j < |Derive(loc, pokemon, search)| ==>
      loc.le(Derive(loc, pokemon, search)[i].name, Derive(loc, pokemon, search)[j].name)
  {
    ByNameIsPreorder(loc);
    SortSorted(ByName(loc), Window(loc, pokemon, search));
  }

  /** Records whose names compare equal keep the order they had in the collection. */
  lemma DeriveStable(loc: Locale, pokemon: seq<Record>, search: string, k: Record)
    requires Valid(loc)
    ensures Filter(TiedWith(ByName(loc), k), Derive(loc, pokemon, search))
         == Filter(TiedWith(ByName(loc), k), Window(loc, pokemon, search))
  {
    ByNameIsPreorder(loc);
    SortStable(ByName(loc), Window(loc, pokemon, search), k);
  }

  /**
   * Truncation comes before sorting: every listed record is one of the first
   * `ResultLimit` matches in collection order, so a record that matches only at
   * position `ResultLimit` or later never appears, however early it would sort.
   */
  lemma ListedMatchIsEarly(loc: Locale, pokemon: seq<Record>, search: string, p: Record)
    requires p in Derive(loc, pokemon, search)
    ensures exists i :: 0 <= i < ResultLimit && i < |Matching(loc, pokemon, search)|
                        && Matching(loc, pokemon, search)[i] == p
  {
    var w := Window(loc, pokemon, search);
    assert p in multiset(w);
    var j :| 0 <= j < |w| && w[j] == p;
    assert Matching(loc, pokemon, search)[j] == p;
  }

  /** An id that no record of the window carries is carried by no listed record. */
  lemma WindowIdsOnly(loc: Locale, pokemon: seq<Record>, search: string, id: int)
    requires forall i :: 0 <= i < |Window(loc, pokemon, search)| ==> Window(loc, pokemon, search)[i].id != id
    ensures forall j :: 0 <= j < |Derive(loc, pokemon, search)| ==> Derive(loc, pokemon, search)[j].id != id
  {
    var list := Derive(loc, pokemon, search);
    forall j | 0 <= j < |list| ensures list[j].id != id {
      assert list[j] in multiset(Window(loc, pokemon, search));
    }
  }

  /**
   * Conversely every one of the first `ResultLimit` matches is in the list, as
   * often as it occurs among them.
   */
  lemma EarlyMatchIncluded(loc: Locale, pokemon: seq<Record>, search: string, i: nat)
    requires i < |Matching(loc, pokemon, search)| && i < ResultLimit
    ensures Matching(loc, pokemon, search)[i] in Derive(loc, pokemon, search)
  {
    var w := Window(loc, pokemon, search);
    assert w[i] == Matching(loc, pokemon, search)[i];
    assert w[i] in multiset(w);
  }

  /** With an empty search every record matches, so the window is the first twenty records. */
  lemma EmptySearchMatchesAll(loc: Locale, pokemon: seq<Record>)
    requires loc.lower([]) == []
    ensures Matching(loc, pokemon, "") == pokemon
    ensures Window(loc, pokemon, "") == Take(pokemon, ResultLimit)
  {
    forall i | 0 <= i < |pokemon| ensures MatchesSearch(loc, "")(pokemon[i]) {
      ContainsEmpty(loc.lower(pokemon[i].name));
    }
    FilterKeepsAll(MatchesSearch(loc, ""), pokemon);
  }

  /** Matching keeps collection order: it distributes over splitting the collection. */
  lemma MatchingSplits(loc: Locale, front: seq<Record>, back: seq<Record>, search: string)
    ensures Matching(loc, front + back, search) == Matching(loc, front, search) + Matching(loc, back, search)
  {
    FilterAppend(MatchesSearch(loc, search), front, back);
  }
}

=== FILE: text.dfy ===
/**
 * The two locale-dependent string operations the list pipeline uses,
 * `String.prototype.toLowerCase` and `String.prototype.localeCompare`, are kept
 * abstract: a `Locale` supplies both, and `Valid` states the only facts the
 * model relies on. `AsciiLocale` is one concrete locale that meets them.
 */
module Text {
  import opened Orders

  /**
   * `lower` stands for `toLowerCase`; `le(a, b)` stands for `a.localeCompare(b) <= 0`.
   */
  datatype Locale = Locale(lower: string -> string, le: (string, string) -> bool)

  /** Lowering the empty string gives the empty string, and the comparison is consistent. */
  ghost predicate Valid(loc: Locale) {
    && loc.lower([]) == []
    && TotalPreorder(loc.le)
  }

  /** `needle` occurs in `hay` starting at index `i`. */
  predicate OccursAt(hay: string, needle: string, i: int) {
    0 <= i && i + |needle| <= |hay| && hay[i..i + |needle|] == needle
  }

  /** Where `needle` is not a prefix of `hay`, it occurs in `hay` exactly when it occurs in the tail. */
  lemma OccursInTail(hay: string, needle: string)
    requires |hay| > 0
    requires !(|needle| <= |hay| && hay[..|needle|] == needle)
    ensures (exists i :: OccursAt(hay, needle, i)) <==> (exists j :: OccursAt(hay[1..], needle, j))
  {
    if exists j :: OccursAt(hay[1..], needle, j) {
      var j :| OccursAt(hay[1..], needle, j);
      assert hay[j + 1..j + 1 + |needle|] == hay[1..][j..j + |needle|];
      assert OccursAt(hay, needle, j + 1);
    }
    if exists i :: OccursAt(hay, needle, i) {
      var i :| OccursAt(hay, needle, i);
      assert i != 0;
      assert hay[1..][i - 1..i - 1 + |needle|] == hay[i..i + |needle|];
      assert OccursAt(hay[1..], needle, i - 1);
    }
  }

  /** `hay.includes(needle)`: `needle` occurs as a contiguous block of `hay`. */
  function Contains(hay: string, needle: string): (r: bool)
    decreases |hay|
    ensures r <==> exists i :: OccursAt(hay, needle, i)
  {
    if |needle| <= |hay| && hay[..|needle|] == needle then
      assert OccursAt(hay, needle, 0);
      true
    else if |hay| == 0 then
      false
    else
      OccursInTail(hay, needle);
      Contains(hay[1..], needle)
  }

  /** Every string contains the empty string, so an empty search matches every name. */
  lemma ContainsEmpty(hay: string)
    ensures Contains(hay, [])
  {
    assert OccursAt(hay, [], 0);
  }

  // ----- A concrete locale: ASCII case folding and code-point order -----

  function LowerChar(c: char): char {
    if 'A' <= c <= 'Z' then (c as int - 'A' as int + 'a' as int) as char else c
  }

  /** ASCII `toLowerCase`: upper-case Latin letters become lower-case, everything else is kept. */
  function AsciiLower(s: string): (r: string)
    ensures |r| == |s|
    ensures forall i :: 0 <= i < |s| ==> r[i] == LowerChar(s[i])
  {
    seq(|s|, i requires 0 <= i < |s| => LowerChar(s[i]))
  }

  /** Lexicographic order on character codes; a proper prefix comes first. */
  function LexLe(a: string, b: string): bool {
    if |a| == 0 then true
    else if |b| == 0 then false
    else if a[0] < b[0] then true
    else if a[0] > b[0] then false
    else LexLe(a[1..], b[1..])
  }

  lemma {:induction false} LexTotal(a: string, b: string)
    ensures LexLe(a, b) || LexLe(b, a)
  {
    if |a| > 0 && |b| > 0 && a[0] == b[0] {
      LexTotal(a[1..], b[1..]);
    }
  }

  lemma {:induction false} LexTransitive(a: string, b: string, c: string)
    requires LexLe(a, b) && LexLe(b, c)
    ensures LexLe(a, c)
  {
    if |a| > 0 && |b| > 0 && |c| > 0 && a[0] == b[0] && b[0] == c[0] {
      LexTransitive(a[1..], b[1..], c[1..]);
    }
  }

  function AsciiLocale(): Locale {
    Locale(AsciiLower, LexLe)
  }

  /** The ASCII locale meets the assumptions the model makes of a locale. */
  lemma AsciiLocaleValid()
    ensures Valid(AsciiLocale())
  {
    var loc := AsciiLocale();
    forall a, b ensures loc.le(a, b) || loc.le(b, a) {
      LexTotal(a, b);
    }
    forall a, b, c | loc.le(a, b) && loc.le(b, c) ensures loc.le(a, c) {
      LexTransitive(a, b, c);
    }
  }
}

=== FILE: wrappers.dfy ===
/** A value that may be absent. */
module Wrappers {

  /** `None` stands for JavaScript's `undefined` (or `NaN`, where a number is expected). */
  datatype Option<+T> = None | Some(value: T)
}
